=== FILE: README.md ===
# Live-stream clinic: chat, presence, signalling and stream control, in Dafny

This project models three small event-driven state machines from a live-streaming
web application, and proves properties of each. Node runs each event handler to
completion before the next one starts, so each machine is a pure step function.
It maps a state and an event to a next state and a list of outputs.

- **Coordinator** (`coordinator.dfy`, `coordinator_runs.dfy`) models the Socket.IO
  connection handler of `server.js`. It covers chat with a bounded history, hearts,
  the global stream status, chat clearing, room joins, the `admin-going-live`
  notice, and relaying of WebRTC `offer`/`answer`/`ice-candidate` messages. It
  also covers the REST handlers that read or clear that state. State: live
  connections with their rooms and `userType`, the chat log, the `connectedUsers`
  counter and `streamStatus`. Outputs are deliveries: a message plus the set of
  connections it reaches. Socket.IO routing is a stated assumption, following
  Socket.IO 3 and 4 (the `cors` server option at server.js:45-51 exists only from version 3
  on):
  - `io.emit` reaches every connection.
  - `socket.emit` reaches the sender only.
  - Each socket is in the room named by its own id.
  - `socket.broadcast.emit` reaches everyone except the members of the room named
    by the sender's id, the sender among them.
  - `socket.to(r).emit` reaches room `r`'s members except the members of the room
    named by the sender's id.

  `Inbox(out, c)` gives the messages connection `c` receives, in order. Most
  contracts are stated through it.
- **StreamSession** (`stream_session.dfy`, `stream_session_runs.dfy`) models the
  WebSocket controller of `index.js`. It holds one optional ffmpeg process, as an
  opaque id, and the `isStreaming` flag. Events are client messages, client close
  and process exit. The host side is recorded only as far as the handlers observe
  it: spawned ids, running processes, and processes sent SIGTERM.
- **Reconnect** (`reconnect.dfy`) models the viewer page's retry counter
  (`public/viewer.js`): at most 10 retries with a linear 5 s back-off, reset when
  hls.js parses a manifest. On the native HLS path each `initPlayer` adds another
  `error` listener to the same `<video>` element, so one element error runs
  `retryConnection` once per initialisation so far, and nothing on that path ever
  resets the counter. The state counts those initialisations.

Two helper modules support them. `Js` holds dynamic values, truthiness and
property access that throws on `null`/`undefined`. `ChatLog` holds the 100-entry
FIFO log.

Clock readings (`Date.now()`, ISO timestamps), `JSON.parse` and base64 decoding
are not computed by the model. Each event carries their results as inputs.
Events the transport cannot produce are treated as no-ops:
- a connect with an id already in use;
- an event from a socket that is not connected;
- a second exit of the same process.

Behaviour of the code worth noting:
- Chat ids are `Date.now()` and can repeat; `ChatIdsCanRepeat` exhibits this.
- Nothing arbitrates a single live broadcaster.
- `stream_status` is accepted from anyone.
- A socket may join any number of rooms.
- A relayed signal reaches every member of the room named by the target id, not
  only the target connection, except sockets that also joined the sender's id-room.
- `user-disconnected` goes to every other connection except those that joined the
  room named by the departing socket's id.
- Two log lines can throw after their handler has acted. Converting an object
  with its own `toString` field to a string throws a TypeError, and so does
  converting an array that holds such an element at any depth, since `join`
  converts every element. For
  `stream_status` (server.js:118) the status is already stored and sent. For
  `join-room` (server.js:170) the room is joined but nobody is told.

## Model

| member | source | states |
|---|---|---|
| ChatLog.Append | server.js:95-100 | After a push the log holds min(old+1, 100) entries. It is a suffix of old log ++ [message] ending with the new message. Below capacity nothing is evicted; at capacity exactly the oldest entry goes. |
| ChatLog.AppendAllKeepsLast | server.js:95-100 | Starting within capacity, any number of appends leaves exactly the last 100 of (old log ++ arrivals), in arrival order. |
| Coordinator.OnConnect | server.js:73-83 | A connect adds the socket to its own id-room and increments the counter. The newcomer receives, in order, `chat_history` (the old log), `user_count` (new count) and `stream_status` `{status}`. Every other connection receives only the new count. The log and status are unchanged. |
| Coordinator.Compose | server.js:87-93 | A stored message always has a truthy username and type. It keeps `data.username`/`data.type` when truthy and uses 'Guest'/'guest' otherwise. The body is copied unchanged; id and timestamp are the receipt clock. |
| Coordinator.MessageOf | server.js:86-93 | Building the message throws exactly when `data` is null or undefined. Otherwise the message is composed from the three fields read. |
| Coordinator.OnChat | server.js:86-104 | Nullish data throws with no state change and no delivery. Otherwise the log becomes the bounded append of the new message, nothing else changes, and every connection, the sender included, receives exactly that message. |
| Coordinator.OnHeart | server.js:107-112 | No state changes. Every connection receives one `heart_animation` with the username or 'Guest'. Nullish data throws with no delivery. |
| Coordinator.OnStatus | server.js:115-119 | The global status becomes `data.status`, whatever it is and whoever sent it; nothing else changes. Every connection receives the payload unchanged. Nullish data throws with no effect. The handler throws exactly when `data` is nullish or the new status cannot become a string; in the second case only after storing and sending it. |
| Coordinator.OnClear | server.js:122-126 | The log is emptied. Connections, counter and status are unchanged. Every connection receives `chat_cleared`. |
| Coordinator.OnJoin | server.js:167-174 | The room is added to the sender's rooms without removing any, and `userType` is overwritten. Other sockets are untouched. It throws exactly when `userType` cannot become a string, and then nobody is told. Otherwise exactly the live members of that room outside the sender's id-room receive `user-connected` (id, userType); the joiner does not. |
| Coordinator.OnGoingLive | server.js:176-179 | No state changes. Exactly the live members of the named room outside the sender's id-room receive `admin-live` with the sender's id; the sender does not. |
| Coordinator.OnRelay | server.js:181-191 | No state changes. A connection receives the signal, tagged with the sender's id, iff it is live, is in the room named `targetId`, and is not in the room named by the sender's id; the sender never does. |
| Coordinator.OnDisconnect | server.js:193-200 | The socket and its rooms are removed and the counter decrements. Every other live connection receives the new `user_count`, followed by `user-disconnected` unless it joined the room named by the departing id. The departing socket receives nothing. |
| Coordinator.Step | server.js:73-201 | Every event preserves the invariant: counter = number of live connections, log ≤ 100, each socket in its own id-room. Undeliverable events change nothing. |
| CoordinatorRuns.RunKeepsValid | server.js:67-200 | The invariant holds after any sequence of events. |
| CoordinatorRuns.ReachableCounts | server.js:225-235 | In every reachable state `connectedUsers`, and so the `viewers` reported by `GET /api/stream/status`, equals the number of live connections. `GET /api/chat/messages` returns at most 100 entries. |
| CoordinatorRuns.UserCountIsLive | server.js:74-196 | On connect and on disconnect, every connection live afterwards receives a `user_count` equal to the number of live connections. |
| CoordinatorRuns.ChatKeepsLastHundred | server.js:86-100 | A burst of chat messages leaves the log equal to the last 100 of (old log ++ the composed messages), in arrival order. Presence is unchanged. |
| CoordinatorRuns.ChatIdsCanRepeat | server.js:88 | Two messages received in the same millisecond are both stored with the same id. |
| CoordinatorRuns.RelayIgnoresRoomId | server.js:181-191 | The `roomId` argument of a signal has no effect on state or deliveries. |
| CoordinatorRuns.RelayReachesOnlyTarget | server.js:181-191 | If no other socket joined the target's id-room, a signal to a live peer reaches no one else, and reaches that peer, with the sender's id, unless the peer joined the sender's id-room. |
| CoordinatorRuns.RelayToUnknownTargetDropped | server.js:181-191 | A signal to an id that is neither connected nor joined as a room reaches no one and changes nothing. |
| CoordinatorRuns.RelayReachesIdRoomJoiner | server.js:167-191 | A socket that joins a room named by another socket's id receives the signals addressed to that id, unless it is also in the sender's id-room. |
| CoordinatorRuns.IdRoomJoinerMissesDisconnect | server.js:167-200 | A socket that joined the room named by another socket's id is sent only the new count when that socket disconnects, not `user-disconnected`. |
| CoordinatorRuns.UnprintableStatusIsStoredThenThrows | server.js:115-119 | A status object with its own `toString` field is stored and sent to every connection, and then the handler throws. |
| CoordinatorRuns.UnprintableArrayUserTypeJoinsSilently | server.js:167-174 | A `userType` array with one element that cannot become a string makes the log line throw. The room is joined and `userType` stored, but no connection is sent anything. |
| Coordinator.ApiStreamStatus | server.js:225-231 | The report carries the current status, and in every valid state the number of live connections as `viewers`. |
| Coordinator.ApiChatMessages | server.js:233-235 | In a valid state at most 100 messages, and the same history a socket connecting now is sent first. |
| CoordinatorRuns.ClearBySocketOrApiAgree | server.js:237-241 | `clear_chat` from a live socket and `POST /api/chat/clear` produce the same transition and deliveries: only the log is emptied. |
| CoordinatorRuns.HistorySnapshotAgrees | server.js:233-235 | `GET /api/chat/messages` returns the same log that a connection opened now receives as `chat_history`. |
| CoordinatorRuns.DisconnectLeavesRooms | server.js:193-200 | After join then disconnect, the socket was a member of the room and then no longer is; other members are unchanged and the counter drops by one. |
| StreamSession.StartFFmpeg | index.js:62-99 | With a process held, nothing changes and nothing is spawned. Otherwise one fresh process is spawned, held and marked running, and `isStreaming` becomes true. |
| StreamSession.StopFFmpeg | index.js:101-109 | With no process, a no-op. Otherwise the held process is sent stdin end plus SIGTERM, and handle and flag are both cleared. |
| StreamSession.OnMessage | index.js:34-54 | `start-stream`/`stop-stream` act as start/stop and answer the requester alone, whether or not the state changed. `video-data` changes no state and writes the frame only when streaming, a process is held, decoding succeeded and stdin is writable. An unparseable message, a nullish value or any other `type` changes nothing. |
| StreamSession.OnExit | index.js:92-96 | As written, an exit clears handle and flag whatever process exited. With the pid check, it clears them only for the held process. Either way the process stops running. |
| StreamSession.Step | index.js:31-109 | Every event, under either exit policy, keeps `isStreaming` ⇔ handle held, with the held process running. |
| StreamSessionRuns.RunKeepsConsistent | index.js:62-109 | The invariant holds after any sequence of events. |
| StreamSessionRuns.ReachableFlagMatchesHandle | index.js:13-14 | In every reachable state `isStreaming` is true exactly when `ffmpegProcess` is set. |
| StreamSessionRuns.StartIsIdempotent | index.js:38-63 | A second `start-stream`, from any client, changes nothing and spawns nothing, but still answers `stream-started`. |
| StreamSessionRuns.StopWithoutProcessIsNoop | index.js:41-43 | `stop-stream` with no process changes nothing and still answers `stream-stopped`. |
| StreamSessionRuns.CloseStopsSharedProcess | index.js:56-59 | Closing any client's connection terminates the process another client started and clears handle and flag. |
| StreamSessionRuns.StaleExitOrphansNewProcess | index.js:92-96 | Start, stop, start, then the first process exits: as written, the second process is still running but is neither held nor signalled. |
| StreamSessionRuns.OrphanStaysOrphaned | index.js:56-109 | A running process that is neither held nor signalled stays running, unheld and unsignalled through any events other than its own exit: later starts spawn fresh ids, later stops and closes signal only the held process. |
| StreamSessionRuns.StaleExitOrphanOutlivesStop | index.js:56-109 | After the stale-exit run, whatever the clients send next, including `stop-stream` and closing, process 1 keeps running and is never signalled until it exits by itself. |
| StreamSessionRuns.PidCheckedRunHasNoOrphans | index.js:92-96 | With the pid-checked exit callback, every running process is always either held or already told to stop. |
| StreamSessionRuns.PoliciesDifferOnlyOnStaleExit | index.js:92-96 | The two exit policies agree on every event except the exit of a process that is not the one held. |
| Reconnect.Retry | public/viewer.js:76-86 | Below 10, a retry increments the counter by exactly 1 and schedules one re-initialisation after 5000 × new count ms. At 10, nothing is scheduled, the counter is unchanged and the stream is shown offline. |
| Reconnect.Retries | public/viewer.js:65-68 | `k` native error listeners running in turn raise the counter by `k`, capped at 10, scheduling one delay per allowed retry at 5000 × each new count, and show the stream offline. |
| Reconnect.Reset | public/viewer.js:35-43 | A parsed manifest sets the counter to 0, keeps the native listener count, and schedules nothing. |
| Reconnect.ShowLive | public/viewer.js:54-56 | A loaded fragment, or `loadedmetadata` heard by each of the native listeners (public/viewer.js:61-64), leaves the state unchanged and schedules nothing. There is one action per listener, and every action shows the stream live. |
| Reconnect.InitOn | public/viewer.js:15-74 | `initPlayer` on the native path adds one listener pair; on the hls.js path the counter and listeners are unchanged; without HLS support the stream is shown offline. Nothing is scheduled. |
| Reconnect.OnHlsError | public/viewer.js:45-52 | A non-fatal hls.js error does nothing. A fatal one shows the stream offline and retries exactly once. |
| Reconnect.Step | public/viewer.js:15-86 | A parsed manifest resets the counter to 0. A fatal hls.js error retries once. A native element error retries once per native initialisation so far, capped at 10. Loads and non-fatal errors schedule nothing. Every event other than a reset advances the counter by exactly the number of delays it schedules, with consecutive delays. The counter stays in 0..10. |
| Reconnect.RunStaysInRange | public/viewer.js:12-13 | The counter stays within 0..10 after any sequence of player events. |
| Reconnect.DelaysBetweenResets | public/viewer.js:76-86 | Without a reset, the delays scheduled are 5000 × (start + 1), 5000 × (start + 2), … The counter ends that many retries further on, never past 10. On the native path this bounds the page's whole life. |
| Reconnect.RetriesAfterReset | public/viewer.js:35-86 | After a reset, at most 10 re-initialisations are scheduled before the next reset, with strictly increasing delays between 5 s and 50 s. |
| Reconnect.NativeErrorsCompound | public/viewer.js:58-86 | Native path: load, error, the retry's re-initialisation, error. The second error is heard twice, so the counter goes from 1 to 3 and delays 5 s, 10 s and 15 s are scheduled in all. |

## Findings

| source | as written | input that shows it | evidently intended | confidence | as-written member | corrected member |
|---|---|---|---|---|---|---|
| index.js:92-96 | The process `close` callback sets `ffmpegProcess = null` and `isStreaming = false` whichever process exited. | `start-stream`, `stop-stream`, `start-stream`, then the first process's `close` fires. The second process keeps running, unheld and never signalled, and no later `stop-stream` or close signals it (`StaleExitOrphanOutlivesStop`). | Clear the handle only when the exiting process is the one held. | medium, not executed | StreamSessionRuns.StaleExitOrphansNewProcess | StreamSessionRuns.PidCheckedRunHasNoOrphans |

`StreamSession.Step` takes the exit policy as a parameter. Every invariant lemma
holds for both policies. `PidChecked` is the corrected behaviour, and the
no-orphan guarantee is proved for it.

## Left out

- The `rtmp_data` handler (server.js:129-164): temp files and a spawned ffmpeg per chunk. This is file and process plumbing with no coordinator state.
- The HTTPS Socket.IO server (server.js:53-65): a single transport is modelled. In the source, HTTPS sockets increment `connectedUsers`, but `io.emit` only reaches HTTP sockets.
- `uptime` in `GET /api/stream/status`: process-level, not state.
- HTTP, TLS, CORS and NodeMediaServer setup, `listen` calls, and logging output. The two log lines that can throw (server.js:118, 170) are modelled as throws.
- Serialisation of emitted payloads (JSON drops `undefined` fields). The model delivers the values themselves.
- What happens after a handler throws. server.js neither catches the TypeError nor installs an `uncaughtException` handler, so the exception is uncaught and Node would most likely end the process. `Run` instead continues with the state unchanged. This over-approximates the real runs: a real run that stops at its first throw is a prefix of a modelled run, so the invariants proved over `Run` cover it.
- `socket.join` with an array of rooms, and non-string room names. Rooms are strings.
- JavaScript numbers are modelled as integers, so NaN and fractions are left out, including the falsiness of NaN.
- Js.Get: inherited properties (`toString`, `hasOwnProperty`, …) and an array's element indices read as `undefined`. The handlers read only `username`, `message`, `type` and `status`, none of which is inherited or an index.
- Socket.IO's internal room bookkeeping is a stated assumption, not verified code.
- ffmpeg argument lists, stdout/stderr logging, and spawn failures (the child's `error` event). Also failures of `ws.send`.
- `JSON.parse` and `Buffer.from(…, 'base64')`: their results are event inputs. The result of `stdin.writable` is an input flag.
- Viewer page: autoplay (`play()`), the DOM, random viewer counts and simulated doctor replies. Also the old hls.js instance not being destroyed on re-initialisation; each hls.js event stands for one listener call on any instance.
- The branch `initPlayer` takes is an input of each call, although a given browser always takes the same one; the model allows mixed paths.
- Broadcaster arbitration, eviction, `stream-rejected`, `no-live-admin` and `request-webrtc-stream`: none of the modelled files implements them.
- public/admin.js, admin.js, viewer.js, dev-server.js and docker/processor/server.js are not part of this model.

=== FILE: chat_log.dfy ===
/**
  The server's in-memory chat history: an append-only log that keeps only the
  most recent `Capacity` entries, evicting the oldest first.
 */
module ChatLog {

  /** How many chat messages the server retains; older ones are dropped (server.js:95-100). */
  const Capacity: nat := 100

  function Min(a: nat, b: nat): nat {
    if a <= b then a else b
  }

  /** The last `n` elements of `s`, or all of `s` when it is shorter. */
  function LastN<T>(s: seq<T>, n: nat): (r: seq<T>)
    ensures |r| == Min(|s|, n)
    ensures r == s[|s| - |r|..]
  {
    if |s| <= n then s else s[|s| - n..]
  }

  /**
    `push` followed by `slice(-100)` when the log has grown past the capacity.
   */
  function Append<T>(log: seq<T>, m: T): (r: seq<T>)
    ensures |r| == Min(|log| + 1, Capacity)
    ensures |r| > 0 && r[|r| - 1] == m
    ensures r == (log + [m])[|log| + 1 - |r|..]
    ensures |log| < Capacity ==> r == log + [m]
    ensures |log| == Capacity ==> r == log[1..] + [m]
  {
    var grown := log + [m];
    if |grown| > Capacity then grown[|grown| - Capacity..] else grown
  }

  /** Appending several messages in arrival order. */
  function AppendAll<T>(log: seq<T>, ms: seq<T>): seq<T>
    decreases |ms|
  {
    if ms == [] then log else AppendAll(Append(log, ms[0]), ms[1..])
  }

  /**
    However many messages arrive, a log that started within its capacity
    holds exactly the last `Capacity` of (old log ++ arrivals), in arrival order.
   */
  lemma {:induction false} AppendAllKeepsLast<T>(log: seq<T>, ms: seq<T>)
    requires |log| <= Capacity
    ensures AppendAll(log, ms) == LastN(log + ms, Capacity)
    ensures |AppendAll(log, ms)| <= Capacity
    decreases |ms|
  {
    if ms == [] {
      assert log + ms == log;
    } else {
      var grown := log + [ms[0]];
      var next := Append(log, ms[0]);
      AppendIsLastN(log, ms[0]);
      AppendAllKeepsLast(next, ms[1..]);
      LastNConcat(grown, ms[1..], Capacity);
      SplitFirst(log, ms);
    }
  }

  lemma SplitFirst<T>(log: seq<T>, ms: seq<T>)
    requires ms != []
    ensures log + [ms[0]] + ms[1..] == log + ms
  {
  }

  /** One append is the last `Capacity` of the grown log. */
  lemma AppendIsLastN<T>(log: seq<T>, m: T)
    ensures Append(log, m) == LastN(log + [m], Capacity)
    ensures |Append(log, m)| <= Capacity
  {
  }

  /** Trimming before more arrivals is the same as trimming once at the end. */
  lemma {:induction false} LastNConcat<T>(s: seq<T>, ms: seq<T>, n: nat)
    requires n > 0
    ensures LastN(LastN(s, n) + ms, n) == LastN(s + ms, n)
  {
    var t := LastN(s, n);
    var lhs := LastN(t + ms, n);
    var rhs := LastN(s + ms, n);
    assert |lhs| == |rhs|;
    forall i | 0 <= i < |lhs|
      ensures lhs[i] == rhs[i]
    {
      assert lhs[i] == (t + ms)[|t| + |ms| - |lhs| + i];
      assert rhs[i] == (s + ms)[|s| + |ms| - |rhs| + i];
    }
  }
}

=== FILE: coordinator.dfy ===
/**
  The chat, presence and signalling coordinator of server.js: the Socket.IO
  connection handler and the REST handlers that read or reset its state.

  Node runs each handler to completion before the next, so the coordinator is
  a pure step function from (state, event) to (state', deliveries). A delivery
  is a message and the set of connections it reaches; the Socket.IO routing
  primitives are modelled as recipient sets:
  - `io.emit` reaches every connection;
  - `socket.emit` reaches the sender only;
  - `socket.broadcast.emit` reaches every connection except the members of
    the room named by the sender's id;
  - `socket.to(r).emit` reaches the members of room `r` except the members
    of the room named by the sender's id;
  - every connection is a member of the room named by its own id, so the
    sender itself is never reached by the last two.
  These are the rules of Socket.IO 3 and 4, whose broadcasts exclude the
  sender's id-room rather than the sender's connection alone.
 */
module Coordinator {
  import opened Js
  import ChatLog

  type ConnId = string
  type RoomId = string

  /** A live socket: the rooms it has joined and the `userType` it last declared. */
  datatype Conn = Conn(rooms: set<RoomId>, userType: Value)

  /** A stored chat message, as built by the `chat_message` handler. */
  datatype ChatMessage = ChatMessage(
    id: int,            // Date.now() at receipt; not unique
    username: Value,
    message: Value,
    timestamp: string,  // new Date().toISOString() at receipt
    kind: Value)        // the message's `type` field

  /**
    The module-level state of server.js: the live sockets, `chatMessages`,
    `connectedUsers` and `streamStatus`.
   */
  datatype Server = Server(
    conns: map<ConnId, Conn>,
    chat: seq<ChatMessage>,
    users: int,
    status: Value)

  /** The two clock readings a handler takes: `Date.now()` and `new Date().toISOString()`. */
  datatype Clock = Clock(millis: int, iso: string)

  datatype SignalKind = Offer | Answer | IceCandidate

  /** What a connection, or an HTTP client, can make the server do. */
  datatype Event =
    | Connect(id: ConnId)
    | PostChat(from: ConnId, data: Value, clock: Clock)
    | SendHeart(from: ConnId, data: Value, clock: Clock)
    | SetStatus(from: ConnId, data: Value)
    | ClearChat(from: ConnId)
    | JoinRoom(from: ConnId, room: RoomId, userType: Value)
    | GoingLive(from: ConnId, room: RoomId)
    | Relay(kind: SignalKind, from: ConnId, payload: Value, roomId: Value, targetId: RoomId)
    | Disconnect(from: ConnId)
    | ApiClearChat

  /** The messages the server emits, by Socket.IO event name. */
  datatype Outbound =
    | ChatHistory(log: seq<ChatMessage>)              // 'chat_history'
    | UserCount(count: int)                           // 'user_count'
    | StreamStatus(payload: Value)                    // 'stream_status'
    | NewChat(message: ChatMessage)                   // 'chat_message'
    | HeartAnimation(username: Value, timestamp: string) // 'heart_animation'
    | ChatCleared                                     // 'chat_cleared'
    | UserConnected(id: ConnId, userType: Value)      // 'user-connected'
    | AdminLive(id: ConnId)                           // 'admin-live'
    | Signal(kind: SignalKind, payload: Value, from: ConnId) // 'offer', 'answer', 'ice-candidate'
    | UserDisconnected(id: ConnId)                    // 'user-disconnected'

  datatype Delivery = Delivery(to: set<ConnId>, msg: Outbound)

  /**
    The result of one handler: the next state, the deliveries in emission
    order, and whether the handler threw a TypeError (reading a property of
    null or undefined, or logging a value that cannot become a string). The
    state and deliveries are those made before the throw.
   */
  datatype Reaction = Reaction(next: Server, out: seq<Delivery>, threw: bool)

  const Guest: Value := Str("Guest")
  const GuestKind: Value := Str("guest")

  /** The state when the process starts. */
  function Init(): Server {
    Server(map[], [], 0, Str("offline"))
  }

  /** The invariant every reachable state keeps. */
  predicate Valid(s: Server) {
    && s.users == |s.conns|
    && |s.chat| <= ChatLog.Capacity
    && forall c | c in s.conns :: c in s.conns[c].rooms
  }

  // ---------------------------------------------------------------------
  // Recipients

  /** Every live connection: the audience of `io.emit`. */
  function Everyone(s: Server): set<ConnId> {
    s.conns.Keys
  }

  /** The members of room `r`. */
  function Members(s: Server, r: RoomId): set<ConnId> {
    set c | c in s.conns && r in s.conns[c].rooms
  }

  /** The audience of `socket.to(r).emit` from `sender`: the room, less the sender's id-room. */
  function ToRoom(s: Server, sender: ConnId, r: RoomId): set<ConnId> {
    Members(s, r) - Members(s, sender)
  }

  /** The audience of `socket.broadcast.emit` from `sender`: everyone but the sender's id-room. */
  function Broadcast(s: Server, sender: ConnId): set<ConnId> {
    Everyone(s) - Members(s, sender)
  }

  /** The messages connection `c` receives from a list of deliveries, in order. */
  function Inbox(out: seq<Delivery>, c: ConnId): seq<Outbound> {
    if out == [] then []
    else (if c in out[0].to then [out[0].msg] else []) + Inbox(out[1..], c)
  }

  lemma InboxOne(d: Delivery)
    ensures forall c :: Inbox([d], c) == if c in d.to then [d.msg] else []
  {
    forall c ensures Inbox([d], c) == if c in d.to then [d.msg] else [] {
      assert [d][1..] == [];
    }
  }

  /** Deliveries in sequence reach each connection in sequence. */
  lemma {:induction false} InboxConcat(a: seq<Delivery>, b: seq<Delivery>, c: ConnId)
    ensures Inbox(a + b, c) == Inbox(a, c) + Inbox(b, c)
    decreases |a|
  {
    if a == [] {
      assert a + b == b;
    } else {
      var head: seq<Outbound> := if c in a[0].to then [a[0].msg] else [];
      assert (a + b)[0] == a[0];
      assert (a + b)[1..] == a[1..] + b;
      InboxConcat(a[1..], b, c);
      assert Inbox(a + b, c) == head + (Inbox(a[1..], c) + Inbox(b, c));
      assert Inbox(a, c) == head + Inbox(a[1..], c);
    }
  }

  /** Two deliveries in a row. */
  lemma InboxPair(d: Delivery, e: Delivery, c: ConnId)
    ensures Inbox([d, e], c) == (if c in d.to then [d.msg] else []) + (if c in e.to then [e.msg] else [])
  {
    InboxOne(d);
    InboxOne(e);
    InboxConcat([d], [e], c);
    assert [d, e] == [d] + [e];
  }

  /** The inboxes after the newcomer's snapshot: history and status to it alone, the count to all. */
  lemma InboxSnapshot(id: ConnId, all: set<ConnId>, a: Outbound, b: Outbound, c: Outbound)
    requires id in all
    ensures Inbox([Delivery({id}, a), Delivery(all, b), Delivery({id}, c)], id) == [a, b, c]
    ensures forall x | x != id :: Inbox([Delivery({id}, a), Delivery(all, b), Delivery({id}, c)], x) == if x in all then [b] else []
  {
    var d, e, f := Delivery({id}, a), Delivery(all, b), Delivery({id}, c);
    assert [d, e, f] == [d] + [e] + [f];
    InboxOne(d);
    InboxOne(e);
    InboxOne(f);
    forall x
      ensures Inbox([d, e, f], x) == Inbox([d], x) + Inbox([e], x) + Inbox([f], x)
    {
      InboxConcat([d] + [e], [f], x);
      InboxConcat([d], [e], x);
    }
    assert [a] + [b] + [c] == [a, b, c];
    forall x | x != id
      ensures Inbox([d, e, f], x) == if x in all then [b] else []
    {
      var none: seq<Outbound> := [];
      assert x !in {id};
      assert none + [b] + none == [b];
      assert none + none + none == none;
    }
  }

  // ---------------------------------------------------------------------
  // Handlers

  /**
    A new socket: counted, placed in the room named by its id, sent the chat
    history and the stream status; everyone, the newcomer included, is sent
    the new user count.
   */
  function OnConnect(s: Server, id: ConnId): (r: Reaction)
    requires id !in s.conns
    ensures Valid(s) ==> Valid(r.next)
    ensures !r.threw
    ensures r.next.conns.Keys == s.conns.Keys + {id}
    ensures r.next.conns[id] == Conn({id}, Undefined)
    ensures forall c | c in s.conns :: r.next.conns[c] == s.conns[c]
    ensures r.next.users == s.users + 1
    ensures r.next.chat == s.chat && r.next.status == s.status
    ensures Inbox(r.out, id) == [ChatHistory(s.chat), UserCount(s.users + 1), StreamStatus(Record("status", s.status))]
    ensures forall c | c != id :: Inbox(r.out, c) == if c in s.conns then [UserCount(s.users + 1)] else []
  {
    var s' := s.(conns := s.conns[id := Conn({id}, Undefined)], users := s.users + 1);
    var out := [
      Delivery({id}, ChatHistory(s.chat)),
      Delivery(Everyone(s'), UserCount(s'.users)),
      Delivery({id}, StreamStatus(Record("status", s.status)))];
    assert s'.conns.Keys == s.conns.Keys + {id};
    assert |s'.conns| == |s.conns| + 1 by {
      assert |s'.conns.Keys| == |s.conns.Keys| + 1;
    }
    InboxSnapshot(id, Everyone(s'), ChatHistory(s.chat), UserCount(s'.users), StreamStatus(Record("status", s.status)));
    Reaction(s', out, false)
  }

  /**
    The message the `chat_message` handler stores, from the three fields it
    reads: a falsy username becomes 'Guest' and a falsy type 'guest'; the body
    is copied as sent.
   */
  function Compose(username: Value, body: Value, kind: Value, clock: Clock): (m: ChatMessage)
    ensures Truthy(m.username) && Truthy(m.kind)
    ensures Truthy(username) ==> m.username == username
    ensures !Truthy(username) ==> m.username == Guest
    ensures Truthy(kind) ==> m.kind == kind
    ensures !Truthy(kind) ==> m.kind == GuestKind
    ensures m.message == body
    ensures m.id == clock.millis && m.timestamp == clock.iso
  {
    ChatMessage(clock.millis, Or(username, Guest), body, clock.iso, Or(kind, GuestKind))
  }

  /** The message a `chat_message` carrying `data` stores; `None` when reading `data` throws. */
  function MessageOf(data: Value, clock: Clock): (r: Option<ChatMessage>)
    ensures r.None? <==> Nullish(data)
    ensures r.Some? ==> r.value == Compose(Get(data, "username").value, Get(data, "message").value, Get(data, "type").value, clock)
  {
    match Get(data, "username")
    case None => None
    case Some(u) => Some(Compose(u, Get(data, "message").value, Get(data, "type").value, clock))
  }

  /**
    `chat_message`: the message is appended to the bounded log and sent to
    every connection, the sender included.
   */
  function OnChat(s: Server, data: Value, clock: Clock): (r: Reaction)
    ensures Valid(s) ==> Valid(r.next)
    ensures r.threw <==> Nullish(data)
    ensures r.threw ==> r.next == s && r.out == []
    ensures !r.threw ==>
      var m := MessageOf(data, clock).value;
      && r.next == s.(chat := ChatLog.Append(s.chat, m))
      && forall c :: Inbox(r.out, c) == if c in s.conns then [NewChat(m)] else []
  {
    match MessageOf(data, clock)
    case None => Reaction(s, [], true)
    case Some(m) =>
      var out := [Delivery(Everyone(s), NewChat(m))];
      InboxOne(out[0]);
      Reaction(s.(chat := ChatLog.Append(s.chat, m)), out, false)
  }

  /** `send_heart`: a reaction sent to every connection; nothing is stored. */
  function OnHeart(s: Server, data: Value, clock: Clock): (r: Reaction)
    ensures r.next == s
    ensures r.threw <==> Nullish(data)
    ensures r.threw ==> r.out == []
    ensures !r.threw ==> forall c :: Inbox(r.out, c) ==
                           if c in s.conns then [HeartAnimation(Or(Get(data, "username").value, Guest), clock.iso)] else []
  {
    match Get(data, "username")
    case None => Reaction(s, [], true)
    case Some(u) =>
      var out := [Delivery(Everyone(s), HeartAnimation(Or(u, Guest), clock.iso))];
      InboxOne(out[0]);
      Reaction(s, out, false)
  }

  /**
    `stream_status`: whatever `data.status` holds becomes the global status,
    with no check of the value or of who sent it, and `data` itself is sent
    unchanged to every connection. The log line that follows throws when the
    new status cannot become a string, after the status is stored and sent.
   */
  function OnStatus(s: Server, data: Value): (r: Reaction)
    ensures r.threw <==> Nullish(data) || ToStringThrows(Get(data, "status").value)
    ensures Nullish(data) ==> r.next == s && r.out == []
    ensures !Nullish(data) ==> r.next == s.(status := Get(data, "status").value)
    ensures !Nullish(data) ==> forall c :: Inbox(r.out, c) == if c in s.conns then [StreamStatus(data)] else []
  {
    match Get(data, "status")
    case None => Reaction(s, [], true)
    case Some(v) =>
      var out := [Delivery(Everyone(s), StreamStatus(data))];
      InboxOne(out[0]);
      Reaction(s.(status := v), out, ToStringThrows(v))
  }

  /**
    `clear_chat` and `POST /api/chat/clear`: the log is emptied and every
    connection is told; presence and status are untouched.
   */
  function OnClear(s: Server): (r: Reaction)
    ensures !r.threw
    ensures r.next.chat == []
    ensures r.next.conns == s.conns && r.next.users == s.users && r.next.status == s.status
    ensures forall c :: Inbox(r.out, c) == if c in s.conns then [ChatCleared] else []
  {
    var out := [Delivery(Everyone(s), ChatCleared)];
    InboxOne(out[0]);
    Reaction(s.(chat := []), out, false)
  }

  /**
    `join-room`: the room is added to the sender's rooms (none is left) and
    its `userType` is overwritten; then the log line throws when `userType`
    cannot become a string, and otherwise the room's members outside the
    sender's id-room are told.
   */
  function OnJoin(s: Server, from: ConnId, room: RoomId, userType: Value): (r: Reaction)
    requires from in s.conns
    ensures Valid(s) ==> Valid(r.next)
    ensures r.threw <==> ToStringThrows(userType)
    ensures r.next.conns.Keys == s.conns.Keys
    ensures r.next.conns[from] == Conn(s.conns[from].rooms + {room}, userType)
    ensures forall c | c in s.conns && c != from :: r.next.conns[c] == s.conns[c]
    ensures r.next.chat == s.chat && r.next.users == s.users && r.next.status == s.status
    ensures forall c | c != from :: Inbox(r.out, c) ==
              if !r.threw && c in s.conns && room in s.conns[c].rooms && from !in s.conns[c].rooms
              then [UserConnected(from, userType)] else []
    ensures Valid(s) ==> Inbox(r.out, from) == []
  {
    var s' := s.(conns := s.conns[from := Conn(s.conns[from].rooms + {room}, userType)]);
    if ToStringThrows(userType) then
      Reaction(s', [], true)
    else
      var out := [Delivery(ToRoom(s', from, room), UserConnected(from, userType))];
      InboxOne(out[0]);
      Reaction(s', out, false)
  }

  /** `admin-going-live`: the room's members outside the sender's id-room are told; no state changes. */
  function OnGoingLive(s: Server, from: ConnId, room: RoomId): (r: Reaction)
    ensures !r.threw && r.next == s
    ensures forall c :: Inbox(r.out, c) ==
              if c in s.conns && room in s.conns[c].rooms && from !in s.conns[c].rooms then [AdminLive(from)] else []
    ensures Valid(s) ==> Inbox(r.out, from) == []
  {
    var out := [Delivery(ToRoom(s, from, room), AdminLive(from))];
    InboxOne(out[0]);
    Reaction(s, out, false)
  }

  /**
    `offer`, `answer`, `ice-candidate`: the payload, tagged with the sender's
    id, goes to the members of the room named `targetId` outside the room
    named by the sender's id.
   */
  function OnRelay(s: Server, kind: SignalKind, from: ConnId, payload: Value, targetId: RoomId): (r: Reaction)
    ensures !r.threw && r.next == s
    ensures forall c :: Inbox(r.out, c) ==
              if c in s.conns && targetId in s.conns[c].rooms && from !in s.conns[c].rooms
              then [Signal(kind, payload, from)] else []
    ensures Valid(s) ==> Inbox(r.out, from) == []
  {
    var out := [Delivery(ToRoom(s, from, targetId), Signal(kind, payload, from))];
    InboxOne(out[0]);
    Reaction(s, out, false)
  }

  /**
    `disconnect`: the socket is gone (and with it its rooms) before the
    handler runs; the remaining connections get the new count, and those
    that did not join the room named by its id then get `user-disconnected`.
   */
  function OnDisconnect(s: Server, from: ConnId): (r: Reaction)
    requires from in s.conns
    ensures Valid(s) ==> Valid(r.next)
    ensures !r.threw
    ensures r.next.conns == s.conns - {from}
    ensures r.next.users == s.users - 1
    ensures r.next.chat == s.chat && r.next.status == s.status
    ensures forall c :: Inbox(r.out, c) ==
              if c in s.conns && c != from
              then [UserCount(s.users - 1)] + (if from in s.conns[c].rooms then [] else [UserDisconnected(from)])
              else []
    ensures forall c | c in s.conns && c != from && from in s.conns[c].rooms :: Inbox(r.out, c) == [UserCount(s.users - 1)]
  {
    var s' := s.(conns := s.conns - {from}, users := s.users - 1);
    var out := [Delivery(Everyone(s'), UserCount(s'.users)), Delivery(Broadcast(s', from), UserDisconnected(from))];
    forall c
      ensures Inbox(out, c) == (if c in out[0].to then [out[0].msg] else []) + (if c in out[1].to then [out[1].msg] else [])
    {
      InboxPair(out[0], out[1], c);
    }
    var none: seq<Outbound> := [];
    assert [UserCount(s.users - 1)] + none == [UserCount(s.users - 1)];
    Reaction(s', out, false)
  }

  /**
    Whether the transport can deliver `e` in state `s`: a new socket's id is
    fresh, and only live sockets raise events.
   */
  predicate Deliverable(s: Server, e: Event) {
    match e
    case Connect(id) => id !in s.conns
    case ApiClearChat => true
    case _ => e.from in s.conns
  }

  /** One event, handled to completion. Events the transport cannot deliver change nothing. */
  function Step(s: Server, e: Event): (r: Reaction)
    ensures Valid(s) ==> Valid(r.next)
    ensures !Deliverable(s, e) ==> r == Reaction(s, [], false)
  {
    if !Deliverable(s, e) then Reaction(s, [], false)
    else
      match e
      case Connect(id) => OnConnect(s, id)
      case PostChat(_, data, clock) => OnChat(s, data, clock)
      case SendHeart(_, data, clock) => OnHeart(s, data, clock)
      case SetStatus(_, data) => OnStatus(s, data)
      case ClearChat(_) => OnClear(s)
      case JoinRoom(from, room, userType) => OnJoin(s, from, room, userType)
      case GoingLive(from, room) => OnGoingLive(s, from, room)
      case Relay(kind, from, payload, _, targetId) => OnRelay(s, kind, from, payload, targetId)
      case Disconnect(from) => OnDisconnect(s, from)
      case ApiClearChat => OnClear(s)
  }

  /** The state after a sequence of events. */
  function Run(s: Server, es: seq<Event>): Server
    decreases |es|
  {
    if es == [] then s else Run(Step(s, es[0]).next, es[1..])
  }

  // ---------------------------------------------------------------------
  // REST projections

  datatype StatusReport = StatusReport(status: Value, viewers: int)

  /**
    `GET /api/stream/status`, without the process uptime: the current status
    and, in every valid state, the number of live connections as viewers.
   */
  function ApiStreamStatus(s: Server): (r: StatusReport)
    ensures r.status == s.status
    ensures Valid(s) ==> r.viewers == |s.conns|
  {
    StatusReport(s.status, s.users)
  }

  /**
    `GET /api/chat/messages`: at most 100 messages in a valid state, the same
    history a socket connecting now is sent first.
   */
  function ApiChatMessages(s: Server): (r: seq<ChatMessage>)
    ensures Valid(s) ==> |r| <= ChatLog.Capacity
    ensures forall id | id !in s.conns :: Inbox(OnConnect(s, id).out, id)[0] == ChatHistory(r)
  {
    s.chat
  }
}

=== FILE: coordinator_runs.dfy ===
/**
  Properties of the coordinator over single events and over arbitrary
  sequences of events.
 */
module CoordinatorRuns {
  import opened Js
  import ChatLog
  import opened Coordinator

  /** Every event, whatever its kind, sender or payload, keeps the invariant. */
  lemma {:induction false} RunKeepsValid(s: Server, es: seq<Event>)
    requires Valid(s)
    ensures Valid(Run(s, es))
    decreases |es|
  {
    if es != [] {
      RunKeepsValid(Step(s, es[0]).next, es[1..]);
    }
  }

  /**
    In every reachable state the user counter equals the number of live
    connections, which is what `GET /api/stream/status` reports as viewers,
    and the chat log is within its capacity.
   */
  lemma ReachableCounts(es: seq<Event>)
    ensures var s := Run(Init(), es);
      && s.users == |s.conns|
      && ApiStreamStatus(s).viewers == |s.conns|
      && |ApiChatMessages(s)| <= ChatLog.Capacity
  {
    RunKeepsValid(Init(), es);
  }

  /**
    On connect and on disconnect, every connection live after the event is
    sent the new count, and that count is the number of live connections.
   */
  lemma UserCountIsLive(s: Server, e: Event)
    requires Valid(s)
    requires Deliverable(s, e) && (e.Connect? || e.Disconnect?)
    ensures var r := Step(s, e);
      forall c | c in r.next.conns :: UserCount(|r.next.conns|) in Inbox(r.out, c)
  {
    var r := Step(s, e);
    assert Valid(r.next);
    if e.Connect? {
      assert r == OnConnect(s, e.id);
      forall c | c in r.next.conns
        ensures UserCount(|r.next.conns|) in Inbox(r.out, c)
      {
        if c == e.id {
          assert Inbox(r.out, c)[1] == UserCount(|r.next.conns|);
        } else {
          assert Inbox(r.out, c) == [UserCount(|r.next.conns|)];
        }
      }
    } else {
      assert r == OnDisconnect(s, e.from);
      forall c | c in r.next.conns
        ensures UserCount(|r.next.conns|) in Inbox(r.out, c)
      {
        assert Inbox(r.out, c)[0] == UserCount(|r.next.conns|);
      }
    }
  }

  /** The chat messages the events in `es` append, in order. */
  function Posted(es: seq<Event>): seq<ChatMessage>
    requires forall i | 0 <= i < |es| :: es[i].PostChat? && !Nullish(es[i].data)
  {
    if es == [] then []
    else [MessageOf(es[0].data, es[0].clock).value] + Posted(es[1..])
  }

  /**
    A burst of chat messages from live connections leaves the log holding the
    last 100 of (old log ++ the new messages), in arrival order.
   */
  lemma {:induction false} ChatKeepsLastHundred(s: Server, es: seq<Event>)
    requires |s.chat| <= ChatLog.Capacity
    requires forall i | 0 <= i < |es| :: es[i].PostChat? && !Nullish(es[i].data) && es[i].from in s.conns
    ensures Run(s, es).chat == ChatLog.LastN(s.chat + Posted(es), ChatLog.Capacity)
    ensures Run(s, es).conns == s.conns
    decreases |es|
  {
    ChatRunAppends(s, es);
    ChatLog.AppendAllKeepsLast(s.chat, Posted(es));
  }

  /** A burst of chat events appends their messages one by one, leaving presence alone. */
  lemma {:induction false} ChatRunAppends(s: Server, es: seq<Event>)
    requires forall i | 0 <= i < |es| :: es[i].PostChat? && !Nullish(es[i].data) && es[i].from in s.conns
    ensures Run(s, es).chat == ChatLog.AppendAll(s.chat, Posted(es))
    ensures Run(s, es).conns == s.conns
    decreases |es|
  {
    if es != [] {
      var m := MessageOf(es[0].data, es[0].clock).value;
      var next := Step(s, es[0]).next;
      assert next == s.(chat := ChatLog.Append(s.chat, m));
      ChatRunAppends(next, es[1..]);
      assert Posted(es) == [m] + Posted(es[1..]);
      assert ([m] + Posted(es[1..]))[0] == m;
      assert ([m] + Posted(es[1..]))[1..] == Posted(es[1..]);
    }
  }

  /** Two messages received in the same millisecond carry the same id: ids are not unique. */
  lemma ChatIdsCanRepeat()
    ensures var s := Run(Init(), [
        Connect("a"),
        PostChat("a", Obj(map[]), Clock(7, "t")),
        PostChat("a", Obj(map[]), Clock(7, "t"))]);
      |s.chat| == 2 && s.chat[0].id == s.chat[1].id
  {
    var s1 := Step(Init(), Connect("a")).next;
    var s2 := Step(s1, PostChat("a", Obj(map[]), Clock(7, "t"))).next;
    var s3 := Step(s2, PostChat("a", Obj(map[]), Clock(7, "t"))).next;
    assert s1.conns.Keys == {"a"};
    assert |s2.chat| == 1;
    assert Run(Init(), [
        Connect("a"),
        PostChat("a", Obj(map[]), Clock(7, "t")),
        PostChat("a", Obj(map[]), Clock(7, "t"))]) == s3;
  }

  /** The `roomId` argument of a relayed signal has no effect. */
  lemma RelayIgnoresRoomId(s: Server, kind: SignalKind, from: ConnId, payload: Value, r1: Value, r2: Value, targetId: RoomId)
    ensures Step(s, Relay(kind, from, payload, r1, targetId)) == Step(s, Relay(kind, from, payload, r2, targetId))
  {
  }

  /**
    A signal addressed to a live peer whose id-room nobody else has joined
    reaches that peer and no one else, tagged with the sender's id, unless the
    peer has joined the sender's id-room, which the broadcast excludes.
   */
  lemma RelayReachesOnlyTarget(s: Server, kind: SignalKind, from: ConnId, payload: Value, roomId: Value, target: ConnId)
    requires Valid(s)
    requires from in s.conns && target in s.conns && target != from
    requires forall c | c in s.conns && c != target :: target !in s.conns[c].rooms
    ensures var r := Step(s, Relay(kind, from, payload, roomId, target));
      && r.next == s
      && Inbox(r.out, target) == (if from in s.conns[target].rooms then [] else [Signal(kind, payload, from)])
      && forall c | c != target :: Inbox(r.out, c) == []
  {
  }

  /** A signal for a target that is not a room of any live connection reaches no one. */
  lemma RelayToUnknownTargetDropped(s: Server, kind: SignalKind, from: ConnId, payload: Value, roomId: Value, target: RoomId)
    requires Valid(s)
    requires target !in s.conns
    requires forall c | c in s.conns :: target !in s.conns[c].rooms
    ensures var r := Step(s, Relay(kind, from, payload, roomId, target));
      r.next == s && !r.threw && forall c :: Inbox(r.out, c) == []
  {
  }

  /**
    A connection that joined a room named by another's id receives that peer's
    signals too, unless it is also in the sender's id-room.
   */
  lemma RelayReachesIdRoomJoiner(s: Server, kind: SignalKind, from: ConnId, payload: Value, roomId: Value, target: ConnId, eavesdropper: ConnId)
    requires Valid(s)
    requires from in s.conns && eavesdropper in s.conns && eavesdropper != from
    ensures var joined := Step(s, JoinRoom(eavesdropper, target, Undefined)).next;
      Inbox(Step(joined, Relay(kind, from, payload, roomId, target)).out, eavesdropper)
        == if from in s.conns[eavesdropper].rooms || from == target then [] else [Signal(kind, payload, from)]
  {
    var joined := JoinStep(s, eavesdropper, target, Undefined);
    RelayStep(joined, kind, from, payload, roomId, target);
    var r := OnRelay(joined, kind, from, payload, target);
    assert Inbox(r.out, eavesdropper) ==
      if target in joined.conns[eavesdropper].rooms && from !in joined.conns[eavesdropper].rooms
      then [Signal(kind, payload, from)] else [];
  }

  /** A deliverable `join-room` is handled by `OnJoin`; the joiner is then in the room. */
  lemma JoinStep(s: Server, from: ConnId, room: RoomId, userType: Value) returns (joined: Server)
    requires from in s.conns
    ensures joined == Step(s, JoinRoom(from, room, userType)).next
    ensures joined.conns.Keys == s.conns.Keys && joined.conns[from].rooms == s.conns[from].rooms + {room}
    ensures joined.users == s.users
    ensures forall c | c in s.conns && c != from :: joined.conns[c] == s.conns[c]
  {
    var r := OnJoin(s, from, room, userType);
    assert Step(s, JoinRoom(from, room, userType)) == r;
    joined := r.next;
  }

  /** A deliverable signal is handled by `OnRelay`. */
  lemma RelayStep(s: Server, kind: SignalKind, from: ConnId, payload: Value, roomId: Value, target: RoomId)
    requires from in s.conns
    ensures Step(s, Relay(kind, from, payload, roomId, target)) == OnRelay(s, kind, from, payload, target)
  {
  }

  /** Clearing by socket event and by `POST /api/chat/clear` are the same transition. */
  lemma ClearBySocketOrApiAgree(s: Server, from: ConnId)
    requires from in s.conns
    ensures Step(s, ClearChat(from)) == Step(s, ApiClearChat)
    ensures Step(s, ApiClearChat).next == s.(chat := [])
  {
  }

  /** What `GET /api/chat/messages` returns is the history a connection opened now would be sent. */
  lemma HistorySnapshotAgrees(s: Server, id: ConnId)
    requires id !in s.conns
    ensures Inbox(Step(s, Connect(id)).out, id)[0] == ChatHistory(ApiChatMessages(s))
  {
  }

  /**
    `join-room` followed by `disconnect` of the same socket leaves the other
    connections' rooms as they were, and the room loses that member.
   */
  lemma DisconnectLeavesRooms(s: Server, from: ConnId, room: RoomId, userType: Value)
    requires Valid(s)
    requires from in s.conns
    ensures var s1 := Step(s, JoinRoom(from, room, userType)).next;
      var s2 := Step(s1, Disconnect(from)).next;
      && from in Members(s1, room)
      && Members(s2, room) == Members(s, room) - {from}
      && s2.users == s.users - 1
  {
    var s1 := JoinStep(s, from, room, userType);
    DisconnectStep(s1, from);
    var s2 := OnDisconnect(s1, from).next;
    assert from in Members(s1, room);
    assert Members(s2, room) == Members(s, room) - {from};
  }

  /**
    A socket that joined the room named by another socket's id is excluded
    from that socket's `user-disconnected` broadcast: it is sent only the count.
   */
  lemma IdRoomJoinerMissesDisconnect(s: Server, from: ConnId, joiner: ConnId, userType: Value)
    requires Valid(s)
    requires from in s.conns && joiner in s.conns && joiner != from
    ensures var s1 := Step(s, JoinRoom(joiner, from, userType)).next;
      Inbox(Step(s1, Disconnect(from)).out, joiner) == [UserCount(s.users - 1)]
  {
    var s1 := JoinStep(s, joiner, from, userType);
    DisconnectStep(s1, from);
    assert from in s1.conns[joiner].rooms;
  }

  /**
    A status whose value cannot become a string is stored and sent to everyone
    before the log line throws.
   */
  lemma UnprintableStatusIsStoredThenThrows(s: Server, from: ConnId)
    requires from in s.conns
    ensures var data := Record("status", Obj(map["toString" := Num(0)]));
      var r := Step(s, SetStatus(from, data));
      && r.threw
      && r.next.status == Obj(map["toString" := Num(0)])
      && forall c | c in s.conns :: Inbox(r.out, c) == [StreamStatus(data)]
  {
  }

  /**
    A `userType` array holding an element that cannot become a string makes
    the log line throw: the room is joined and `userType` stored, but nobody
    is told the user connected.
   */
  lemma UnprintableArrayUserTypeJoinsSilently(s: Server, from: ConnId, room: RoomId)
    requires Valid(s) && from in s.conns
    ensures var userType := Arr([Str("host"), Obj(map["toString" := Num(0)])]);
      var r := Step(s, JoinRoom(from, room, userType));
      && r.threw
      && r.next.conns[from] == Conn(s.conns[from].rooms + {room}, userType)
      && forall c :: Inbox(r.out, c) == []
  {
    var userType := Arr([Str("host"), Obj(map["toString" := Num(0)])]);
    assert ToStringThrows(userType.elems[1]);
    assert Step(s, JoinRoom(from, room, userType)) == OnJoin(s, from, room, userType);
  }

  /** A deliverable `disconnect` is handled by `OnDisconnect`. */
  lemma DisconnectStep(s: Server, from: ConnId)
    requires from in s.conns
    ensures Step(s, Disconnect(from)) == OnDisconnect(s, from)
  {
  }

}

=== FILE: js.dfy ===
/**
  The slice of JavaScript value semantics the handlers depend on: the dynamic
  values a client can send, truthiness (what `x || d` tests) and property
  access, which throws a TypeError on `null` and `undefined`.
 */
module Js {

  datatype Option<+T> = None | Some(value: T)

  /** A JSON-like JavaScript value. Numbers are integers: no NaN, no fractions. */
  datatype Value =
    | Undefined
    | Null
    | Bool(b: bool)
    | Num(n: int)
    | Str(s: string)
    | Arr(elems: seq<Value>)
    | Obj(fields: map<string, Value>)

  /** JavaScript truthiness: `undefined`, `null`, `false`, `0` and `""` are falsy. */
  predicate Truthy(v: Value) {
    match v
    case Undefined => false
    case Null => false
    case Bool(b) => b
    case Num(n) => n != 0
    case Str(s) => s != ""
    case Arr(_) => true
    case Obj(_) => true
  }

  /** `a || b`: the left operand when it is truthy, the right one otherwise. */
  function Or(a: Value, b: Value): Value {
    if Truthy(a) then a else b
  }

  /**
    `v.key`: `None` stands for the TypeError thrown when `v` is null or
    undefined; a missing field, and any field of a primitive, reads as
    `undefined`. An array's `length` is its element count; the handlers read
    no element index, so every other key of an array reads as `undefined`.
   */
  function Get(v: Value, key: string): (r: Option<Value>)
    ensures r.None? <==> v.Undefined? || v.Null?
    ensures v.Obj? && key in v.fields ==> r == Some(v.fields[key])
    ensures v.Obj? && key !in v.fields ==> r == Some(Undefined)
    ensures v.Arr? ==> r == Some(if key == "length" then Num(|v.elems|) else Undefined)
  {
    match v
    case Undefined => None
    case Null => None
    case Arr(elems) => Some(if key == "length" then Num(|elems|) else Undefined)
    case Obj(fields) => Some(if key in fields then fields[key] else Undefined)
    case _ => Some(Undefined)
  }

  /** True when reading any property of `v` throws. */
  predicate Nullish(v: Value) {
    v.Undefined? || v.Null?
  }

  /**
    True when converting `v` to a string, as a template literal `${v}` does,
    throws a TypeError. An object with its own `toString` field shadows the
    inherited method with a value that cannot be called (client values are
    JSON), so the conversion falls back to the inherited `valueOf`, which
    returns the object itself, not a primitive. An array converts through
    `join`, which converts every element other than `null` and `undefined`,
    so it throws when some element does. Every other value converts.
   */
  predicate ToStringThrows(v: Value) {
    match v
    case Obj(fields) => "toString" in fields
    case Arr(elems) => exists i | 0 <= i < |elems| :: ToStringThrows(elems[i])
    case _ => false
  }

  /** The object literal `{ key: v }`. */
  function Record(key: string, v: Value): (r: Value)
    ensures Get(r, key) == Some(v)
  {
    Obj(map[key := v])
  }
}

=== FILE: reconnect.dfy ===
/**
  The viewer's reconnect policy (public/viewer.js): a bounded retry counter
  with linear back-off, reset when hls.js parses a manifest.

  On the native HLS path every `initPlayer` adds one more `loadedmetadata` and
  one more `error` listener to the same <video> element, and every scheduled
  re-initialisation calls `initPlayer` again, so one element error runs
  `retryConnection` once per native initialisation so far.
 */
module Reconnect {

  const MaxRetries: nat := 10
  const BaseDelayMs: nat := 5000

  /**
    The page's `retryCount`, and how many times `initPlayer` took the native
    path, which is how many `error` listeners the element carries.
   */
  datatype Player = Player(retryCount: int, nativeInits: nat)

  /** The branch `initPlayer` takes, decided by what the browser supports. */
  datatype Path = HlsJs | NativeHls | Unsupported

  /** The events the page reacts to. */
  datatype Event =
    | InitPlayer(path: Path)  // `initPlayer` runs: on page load, or when a scheduled retry fires
    | ManifestParsed          // hls.js MANIFEST_PARSED
    | HlsError(fatal: bool)   // hls.js ERROR, with `data.fatal`
    | FragLoaded              // hls.js FRAG_LOADED
    | NativeLoaded            // the <video> element's 'loadedmetadata'
    | NativeError             // the <video> element's 'error', heard by every listener on it

  /** What the page does in response. */
  datatype Action =
    | ScheduleInit(delayMs: int)  // setTimeout(initPlayer, delayMs)
    | ShowStatus(live: bool)      // updateStreamStatus
    | Notice(text: string)        // addChatMessage('System', text)

  datatype Reaction = Reaction(next: Player, actions: seq<Action>)

  /** The page before its first `initPlayer`. */
  function Init(): Player {
    Player(0, 0)
  }

  predicate InRange(p: Player) {
    0 <= p.retryCount <= MaxRetries
  }

  /** The delays of the re-initialisations in a list of actions, in order. */
  function Scheduled(actions: seq<Action>): seq<int> {
    if actions == [] then []
    else (if actions[0].ScheduleInit? then [actions[0].delayMs] else []) + Scheduled(actions[1..])
  }

  lemma {:induction false} ScheduledConcat(a: seq<Action>, b: seq<Action>)
    ensures Scheduled(a + b) == Scheduled(a) + Scheduled(b)
    decreases |a|
  {
    if a == [] {
      assert a + b == b;
    } else {
      assert (a + b)[0] == a[0];
      assert (a + b)[1..] == a[1..] + b;
      ScheduledConcat(a[1..], b);
    }
  }

  /**
    From `p` to `q` the counter went up once per delay scheduled, never past
    the limit, and the k-th delay is 5 s times the k-th new count.
   */
  predicate Advances(p: Player, q: Player, delays: seq<int>) {
    && q.retryCount == p.retryCount + |delays| <= MaxRetries
    && forall i | 0 <= i < |delays| :: delays[i] == BaseDelayMs * (p.retryCount + 1 + i)
  }

  lemma AdvancesThen(p: Player, q: Player, d1: seq<int>, q2: Player, d2: seq<int>)
    requires Advances(p, q, d1) && Advances(q, q2, d2)
    ensures Advances(p, q2, d1 + d2)
  {
    forall i | 0 <= i < |d1 + d2|
      ensures (d1 + d2)[i] == BaseDelayMs * (p.retryCount + 1 + i)
    {
      if i >= |d1| {
        assert (d1 + d2)[i] == d2[i - |d1|];
      }
    }
  }

  /**
    `retryConnection`: below the limit, one more retry is counted and the
    player is re-initialised after 5 s per retry so far; at the limit nothing
    is scheduled and the stream is shown offline.
   */
  function Retry(p: Player): (r: Reaction)
    ensures p.retryCount < MaxRetries ==>
      && r.next == p.(retryCount := p.retryCount + 1)
      && Scheduled(r.actions) == [BaseDelayMs * r.next.retryCount]
    ensures p.retryCount >= MaxRetries ==>
      && r.next == p
      && Scheduled(r.actions) == []
      && ShowStatus(false) in r.actions
  {
    if p.retryCount < MaxRetries then
      var count := p.retryCount + 1;
      var actions := [ScheduleInit(BaseDelayMs * count)];
      assert Scheduled(actions) == [BaseDelayMs * count] by {
        assert actions[1..] == [];
      }
      Reaction(p.(retryCount := count), actions)
    else
      var actions := [ShowStatus(false), Notice("Unable to connect to stream. Please refresh the page.")];
      assert Scheduled(actions) == [] by {
        assert actions[1..] == [actions[1]];
        assert actions[1..][1..] == [];
      }
      Reaction(p, actions)
  }

  /**
    `k` native `error` listeners running in turn, each showing the stream
    offline and calling `retryConnection`: the counter climbs by `k`, capped
    at the limit, with one consecutive delay per retry that was still allowed.
   */
  function Retries(p: Player, k: nat): (r: Reaction)
    ensures r.next.nativeInits == p.nativeInits
    ensures InRange(p) ==> Advances(p, r.next, Scheduled(r.actions))
    ensures InRange(p) ==>
      r.next.retryCount == if p.retryCount + k <= MaxRetries then p.retryCount + k else MaxRetries
    ensures k > 0 ==> ShowStatus(false) in r.actions
    decreases k
  {
    if k == 0 then
      assert Scheduled([]) == [];
      Reaction(p, [])
    else
      var first := Retry(p);
      var rest := Retries(first.next, k - 1);
      RetriesCons(p, k, first, rest);
      Reaction(rest.next, [ShowStatus(false)] + first.actions + rest.actions)
  }

  /** One more listener in front of `k - 1` others: the step case of `Retries`. */
  lemma RetriesCons(p: Player, k: nat, first: Reaction, rest: Reaction)
    requires k > 0 && first == Retry(p)
    requires rest.next.nativeInits == first.next.nativeInits
    requires InRange(first.next) ==> Advances(first.next, rest.next, Scheduled(rest.actions))
    requires InRange(first.next) ==>
      rest.next.retryCount == if first.next.retryCount + k - 1 <= MaxRetries then first.next.retryCount + k - 1 else MaxRetries
    ensures rest.next.nativeInits == p.nativeInits
    ensures InRange(p) ==> Advances(p, rest.next, Scheduled([ShowStatus(false)] + first.actions + rest.actions))
    ensures InRange(p) ==>
      rest.next.retryCount == if p.retryCount + k <= MaxRetries then p.retryCount + k else MaxRetries
    ensures ShowStatus(false) in [ShowStatus(false)] + first.actions + rest.actions
  {
    var head := [ShowStatus(false)] + first.actions;
    ScheduledConcat([ShowStatus(false)], first.actions);
    ScheduledConcat(head, rest.actions);
    assert [ShowStatus(false)][1..] == [];
    assert (head + rest.actions)[0] == ShowStatus(false);
    if InRange(p) {
      AdvancesThen(p, first.next, Scheduled(first.actions), rest.next, Scheduled(rest.actions));
    }
  }

  /** `initPlayer`: the native path adds a listener pair; with no HLS support the stream is shown offline. */
  function InitOn(p: Player, path: Path): (r: Reaction)
    ensures path == NativeHls ==> r.next == p.(nativeInits := p.nativeInits + 1)
    ensures path != NativeHls ==> r.next == p
    ensures Scheduled(r.actions) == []
    ensures path == Unsupported ==> ShowStatus(false) in r.actions
    ensures InRange(p) ==> Advances(p, r.next, Scheduled(r.actions))
  {
    match path
    case HlsJs => Reaction(p, [])
    case NativeHls => Reaction(p.(nativeInits := p.nativeInits + 1), [])
    case Unsupported =>
      var actions := [ShowStatus(false), Notice("Your browser does not support live streaming")];
      assert actions[1..][1..] == [];
      Reaction(p, actions)
  }

  /** The MANIFEST_PARSED handler: the stream is shown live and the counter reset. */
  function Reset(p: Player): (r: Reaction)
    ensures r.next == p.(retryCount := 0) && Scheduled(r.actions) == []
  {
    var actions := [ShowStatus(true), Notice("Connected to live stream!")];
    assert actions[1..][1..] == [];
    Reaction(p.(retryCount := 0), actions)
  }

  /** The hls.js ERROR handler: a fatal error shows the stream offline and retries once. */
  function OnHlsError(p: Player, fatal: bool): (r: Reaction)
    ensures !fatal ==> r == Reaction(p, [])
    ensures fatal ==>
      && r.next == Retry(p).next
      && Scheduled(r.actions) == Scheduled(Retry(p).actions)
      && ShowStatus(false) in r.actions
    ensures InRange(p) ==> Advances(p, r.next, Scheduled(r.actions))
  {
    if fatal then
      var retry := Retry(p);
      var head := [ShowStatus(false), Notice("Connection lost, retrying...")];
      assert head[1..][1..] == [];
      ScheduledConcat(head, retry.actions);
      Reaction(retry.next, head + retry.actions)
    else Reaction(p, [])
  }

  /** A loaded fragment, or 'loadedmetadata' heard by every native listener: shown live, nothing else. */
  function ShowLive(p: Player, listeners: nat): (r: Reaction)
    ensures r.next == p && Scheduled(r.actions) == []
    ensures |r.actions| == listeners
    ensures forall i | 0 <= i < |r.actions| :: r.actions[i] == ShowStatus(true)
    ensures InRange(p) ==> Advances(p, r.next, Scheduled(r.actions))
  {
    var actions := seq(listeners, _ => ShowStatus(true));
    NoneScheduled(actions);
    Reaction(p, actions)
  }

  /**
    One event. `initPlayer` on the native path adds a listener pair; a parsed
    manifest resets the counter; a fatal hls.js error shows the stream offline
    and retries once; a native error retries once per listener; a non-fatal
    error or a load changes nothing.
   */
  function Step(p: Player, e: Event): (r: Reaction)
    ensures e == InitPlayer(NativeHls) ==>
      r.next == p.(nativeInits := p.nativeInits + 1) && Scheduled(r.actions) == []
    ensures e == InitPlayer(HlsJs) || e == HlsError(false) || e == FragLoaded || e == NativeLoaded ==>
      r.next == p && Scheduled(r.actions) == []
    ensures e == InitPlayer(Unsupported) ==>
      r.next == p && Scheduled(r.actions) == [] && ShowStatus(false) in r.actions
    ensures e == ManifestParsed ==> r.next == p.(retryCount := 0) && Scheduled(r.actions) == []
    ensures e == HlsError(true) ==>
      && r.next == Retry(p).next
      && Scheduled(r.actions) == Scheduled(Retry(p).actions)
      && ShowStatus(false) in r.actions
    ensures e == NativeError ==>
      && r.next.nativeInits == p.nativeInits
      && (InRange(p) ==>
            r.next.retryCount == if p.retryCount + p.nativeInits <= MaxRetries then p.retryCount + p.nativeInits else MaxRetries)
      && (p.nativeInits > 0 ==> ShowStatus(false) in r.actions)
    ensures e != ManifestParsed && InRange(p) ==> Advances(p, r.next, Scheduled(r.actions))
    ensures InRange(p) ==> InRange(r.next)
  {
    match e
    case InitPlayer(path) => InitOn(p, path)
    case ManifestParsed => Reset(p)
    case HlsError(fatal) => OnHlsError(p, fatal)
    case FragLoaded => ShowLive(p, 1)
    case NativeLoaded => ShowLive(p, p.nativeInits)
    case NativeError => Retries(p, p.nativeInits)
  }

  lemma {:induction false} NoneScheduled(actions: seq<Action>)
    requires forall i | 0 <= i < |actions| :: !actions[i].ScheduleInit?
    ensures Scheduled(actions) == []
    decreases |actions|
  {
    if actions != [] {
      NoneScheduled(actions[1..]);
    }
  }

  /** The player after a sequence of events, and every re-initialisation delay scheduled on the way. */
  function Run(p: Player, es: seq<Event>): (Player, seq<int>)
    decreases |es|
  {
    if es == [] then (p, [])
    else
      var r := Step(p, es[0]);
      var rest := Run(r.next, es[1..]);
      (rest.0, Scheduled(r.actions) + rest.1)
  }

  /** The counter stays within 0..10 whatever the player reports. */
  lemma {:induction false} RunStaysInRange(p: Player, es: seq<Event>)
    requires InRange(p)
    ensures InRange(Run(p, es).0)
    decreases |es|
  {
    if es != [] {
      RunStaysInRange(Step(p, es[0]).next, es[1..]);
    }
  }

  /**
    Without a parsed manifest, the delays scheduled are 5 s times the retry
    number, counting on from where the counter stood, and the counter ends
    exactly that many retries further on, never past 10. On the native path
    nothing resets the counter, so this covers the page's whole life there.
   */
  lemma {:induction false} DelaysBetweenResets(p: Player, es: seq<Event>)
    requires InRange(p)
    requires forall i | 0 <= i < |es| :: es[i] != ManifestParsed
    ensures Advances(p, Run(p, es).0, Run(p, es).1)
    decreases |es|
  {
    if es != [] {
      var r := Step(p, es[0]);
      DelaysBetweenResets(r.next, es[1..]);
      var rest := Run(r.next, es[1..]);
      AdvancesThen(p, r.next, Scheduled(r.actions), rest.0, rest.1);
    }
  }

  /**
    After a reset at most ten re-initialisations are scheduled before the next
    one, with strictly increasing delays from 5 s to 50 s.
   */
  lemma RetriesAfterReset(p: Player, es: seq<Event>)
    requires forall i | 0 <= i < |es| :: es[i] != ManifestParsed
    ensures var delays := Run(Step(p, ManifestParsed).next, es).1;
      && |delays| <= MaxRetries
      && (forall i | 0 <= i < |delays| :: BaseDelayMs <= delays[i] <= BaseDelayMs * MaxRetries)
      && (forall i, j | 0 <= i < j < |delays| :: delays[i] < delays[j])
  {
    DelaysBetweenResets(Step(p, ManifestParsed).next, es);
  }

  /**
    On the native path errors compound: page load, an error, the retry's
    re-initialisation, then one more error runs two listeners, which take the
    counter from 1 to 3 and schedule two re-initialisations at once.
   */
  lemma NativeErrorsCompound()
    ensures Run(Init(), [InitPlayer(NativeHls), NativeError, InitPlayer(NativeHls), NativeError])
      == (Player(3, 2), [5000, 10000, 15000])
  {
    NativeErrorSteps();
    assert Run(Player(1, 2), [NativeError]) == (Player(3, 2), [10000, 15000]) by {
      assert [NativeError][1..] == [];
      assert [10000, 15000] + [] == [10000, 15000];
    }
    assert Run(Player(1, 1), [InitPlayer(NativeHls), NativeError]) == (Player(3, 2), [10000, 15000]) by {
      assert [InitPlayer(NativeHls), NativeError][1..] == [NativeError];
      var none: seq<int> := [];
      assert none + [10000, 15000] == [10000, 15000];
    }
    assert Run(Player(0, 1), [NativeError, InitPlayer(NativeHls), NativeError]) == (Player(3, 2), [5000, 10000, 15000]) by {
      assert [NativeError, InitPlayer(NativeHls), NativeError][1..] == [InitPlayer(NativeHls), NativeError];
      assert [5000] + [10000, 15000] == [5000, 10000, 15000];
    }
    assert [InitPlayer(NativeHls), NativeError, InitPlayer(NativeHls), NativeError][1..]
      == [NativeError, InitPlayer(NativeHls), NativeError];
    var none: seq<int> := [];
    assert none + [5000, 10000, 15000] == [5000, 10000, 15000];
  }

  /** The four steps of `NativeErrorsCompound`, one at a time. */
  lemma NativeErrorSteps()
    ensures Step(Init(), InitPlayer(NativeHls)) == Reaction(Player(0, 1), [])
    ensures Step(Player(0, 1), NativeError).next == Player(1, 1)
    ensures Scheduled(Step(Player(0, 1), NativeError).actions) == [5000]
    ensures Step(Player(1, 1), InitPlayer(NativeHls)) == Reaction(Player(1, 2), [])
    ensures Step(Player(1, 2), NativeError).next == Player(3, 2)
    ensures Scheduled(Step(Player(1, 2), NativeError).actions) == [10000, 15000]
  {
  }
}

=== FILE: stream_session.dfy ===
/**
  The streaming-session controller of index.js: one WebSocket server whose
  clients start and stop a single shared ffmpeg process and feed it frames.

  The server's state is the process handle and the `isStreaming` flag. The
  operating system is represented only as far as the handlers observe it:
  every spawn yields a fresh process id, a process stays running until its
  `close` event fires (once), and a terminate request is recorded.
 */
module StreamSession {
  import opened Js

  type ClientId = string
  type Pid = nat
  type Frame = seq<bv8>

  /** `ffmpegProcess` and `isStreaming`. */
  datatype Server = Server(proc: Option<Pid>, streaming: bool)

  /**
    What the host knows: how many processes were spawned (the next id), which
    are still running, and which were sent `stdin.end()` and SIGTERM.
   */
  datatype Host = Host(spawned: nat, running: set<Pid>, signalled: set<Pid>)

  datatype System = System(server: Server, host: Host)

  /**
    A WebSocket message as the handler sees it: `parsed` is the result of
    `JSON.parse` (`None` when it throws); `decoded` is the result of
    `Buffer.from(data.data, 'base64')` (`None` when it throws); `writable` is
    `ffmpegProcess.stdin.writable` at that moment.
   */
  datatype Event =
    | Message(client: ClientId, parsed: Option<Value>, decoded: Option<Frame>, writable: bool)
    | Close(client: ClientId)
    | Exit(pid: Pid)

  datatype ReplyKind = StreamStarted | StreamStopped

  datatype Effect =
    | Reply(client: ClientId, kind: ReplyKind)  // ws.send to the requesting client
    | Spawn(pid: Pid)
    | Write(pid: Pid, frame: Frame)             // ffmpegProcess.stdin.write
    | Terminate(pid: Pid)                       // stdin.end() and kill('SIGTERM')

  datatype Reaction = Reaction(next: System, effects: seq<Effect>)

  /**
    How the process `close` callback treats the exit: as written it clears the
    handle whatever process exited; `PidChecked` clears it only when the
    exiting process is the one held.
   */
  datatype ExitPolicy = AsWritten | PidChecked

  function Init(): System {
    System(Server(None, false), Host(0, {}, {}))
  }

  /** At every event boundary the flag is set exactly when a handle is held. */
  predicate FlagMatchesHandle(s: Server) {
    s.streaming <==> s.proc.Some?
  }

  /** The invariant of every reachable system, under either exit policy. */
  predicate Consistent(sys: System) {
    && FlagMatchesHandle(sys.server)
    && (sys.server.proc.Some? ==> sys.server.proc.value in sys.host.running)
    && (forall p | p in sys.host.running :: p < sys.host.spawned)
  }

  /** Every running process is either the one held or one already told to stop. */
  predicate NoOrphans(sys: System) {
    forall p | p in sys.host.running :: Some(p) == sys.server.proc || p in sys.host.signalled
  }

  /** `startFFmpeg`: spawns a process unless one is already held. */
  function StartFFmpeg(sys: System): (r: Reaction)
    ensures sys.server.proc.Some? ==> r == Reaction(sys, [])
    ensures sys.server.proc.None? ==>
      var pid := sys.host.spawned;
      && r.next.server == Server(Some(pid), true)
      && r.next.host == sys.host.(spawned := pid + 1, running := sys.host.running + {pid})
      && r.effects == [Spawn(pid)]
  {
    if sys.server.proc.Some? then Reaction(sys, [])
    else
      var pid := sys.host.spawned;
      Reaction(
        System(Server(Some(pid), true), sys.host.(spawned := pid + 1, running := sys.host.running + {pid})),
        [Spawn(pid)])
  }

  /** `stopFFmpeg`: a no-op without a process; otherwise terminates it and clears handle and flag. */
  function StopFFmpeg(sys: System): (r: Reaction)
    ensures sys.server.proc.None? ==> r == Reaction(sys, [])
    ensures sys.server.proc.Some? ==>
      && r.next.server == Server(None, false)
      && r.next.host == sys.host.(signalled := sys.host.signalled + {sys.server.proc.value})
      && r.effects == [Terminate(sys.server.proc.value)]
  {
    match sys.server.proc
    case None => Reaction(sys, [])
    case Some(pid) =>
      Reaction(System(Server(None, false), sys.host.(signalled := sys.host.signalled + {pid})), [Terminate(pid)])
  }

  /** `data.type` of a message, or `None` when parsing or reading it throws. */
  function TypeOf(parsed: Option<Value>): Option<Value> {
    match parsed
    case None => None
    case Some(data) => Get(data, "type")
  }

  /** True when `effects` ends with the one reply `reply` and holds no other. */
  predicate RepliesOnly(effects: seq<Effect>, reply: Effect) {
    && |effects| > 0
    && effects[|effects| - 1] == reply
    && forall i | 0 <= i < |effects| - 1 :: !effects[i].Reply?
  }

  /**
    The message handler, including the `catch` that swallows parse and type
    errors. `start-stream` and `stop-stream` always answer the requesting
    client, whether or not the state changed; video frames reach the process
    only while streaming with a writable stdin; anything else changes nothing.
   */
  function OnMessage(sys: System, client: ClientId, parsed: Option<Value>, decoded: Option<Frame>, writable: bool): (r: Reaction)
    ensures TypeOf(parsed) == Some(Str("start-stream")) ==>
      r.next == StartFFmpeg(sys).next && RepliesOnly(r.effects, Reply(client, StreamStarted))
    ensures TypeOf(parsed) == Some(Str("stop-stream")) ==>
      r.next == StopFFmpeg(sys).next && RepliesOnly(r.effects, Reply(client, StreamStopped))
    ensures TypeOf(parsed) == Some(Str("video-data")) ==>
      && r.next == sys
      && r.effects == if sys.server.streaming && sys.server.proc.Some? && decoded.Some? && writable
                      then [Write(sys.server.proc.value, decoded.value)] else []
    ensures TypeOf(parsed) !in {Some(Str("start-stream")), Some(Str("stop-stream")), Some(Str("video-data"))} ==>
      r == Reaction(sys, [])
  {
    match parsed
    case None => Reaction(sys, [])
    case Some(data) =>
      match Get(data, "type")
      case None => Reaction(sys, [])
      case Some(t) =>
        if t == Str("start-stream") then
          var started := StartFFmpeg(sys);
          Reaction(started.next, started.effects + [Reply(client, StreamStarted)])
        else if t == Str("stop-stream") then
          var stopped := StopFFmpeg(sys);
          Reaction(stopped.next, stopped.effects + [Reply(client, StreamStopped)])
        else if t == Str("video-data") && sys.server.streaming && sys.server.proc.Some? then
          match decoded
          case None => Reaction(sys, [])
          case Some(frame) =>
            if writable then Reaction(sys, [Write(sys.server.proc.value, frame)]) else Reaction(sys, [])
        else Reaction(sys, [])
  }

  /** The process `close` callback for process `pid`. */
  function OnExit(policy: ExitPolicy, sys: System, pid: Pid): (r: Reaction)
    requires pid in sys.host.running
    ensures r.effects == []
    ensures r.next.host == sys.host.(running := sys.host.running - {pid})
    ensures policy == AsWritten ==> r.next.server == Server(None, false)
    ensures policy == PidChecked ==>
      r.next.server == if sys.server.proc == Some(pid) then Server(None, false) else sys.server
  {
    var host := sys.host.(running := sys.host.running - {pid});
    match policy
    case AsWritten => Reaction(System(Server(None, false), host), [])
    case PidChecked =>
      if sys.server.proc == Some(pid) then Reaction(System(Server(None, false), host), [])
      else Reaction(System(sys.server, host), [])
  }

  /**
    One event. A process's `close` fires once, after it was spawned: an
    `Exit` of a process not running changes nothing.
   */
  function Step(policy: ExitPolicy, sys: System, e: Event): (r: Reaction)
    ensures Consistent(sys) ==> Consistent(r.next)
  {
    match e
    case Message(client, parsed, decoded, writable) => OnMessage(sys, client, parsed, decoded, writable)
    case Close(_) => StopFFmpeg(sys)
    case Exit(pid) => if pid in sys.host.running then OnExit(policy, sys, pid) else Reaction(sys, [])
  }

  function Run(policy: ExitPolicy, sys: System, es: seq<Event>): System
    decreases |es|
  {
    if es == [] then sys else Run(policy, Step(policy, sys, es[0]).next, es[1..])
  }
}

=== FILE: stream_session_runs.dfy ===
/**
  Properties of the streaming-session controller over single events and over
  arbitrary sequences of events, and the stale exit callback.
 */
module StreamSessionRuns {
  import opened Js
  import opened StreamSession

  /** A control message `{ type: t }` from `client`. */
  function Control(client: ClientId, t: string): Event {
    Message(client, Some(Record("type", Str(t))), None, true)
  }

  /** The invariant holds after any sequence of events, under either exit policy. */
  lemma {:induction false} RunKeepsConsistent(policy: ExitPolicy, sys: System, es: seq<Event>)
    requires Consistent(sys)
    ensures Consistent(Run(policy, sys, es))
    decreases |es|
  {
    if es != [] {
      RunKeepsConsistent(policy, Step(policy, sys, es[0]).next, es[1..]);
    }
  }

  /** In every reachable state `isStreaming` is true exactly when a process handle is held. */
  lemma ReachableFlagMatchesHandle(policy: ExitPolicy, es: seq<Event>)
    ensures FlagMatchesHandle(Run(policy, Init(), es).server)
  {
    RunKeepsConsistent(policy, Init(), es);
  }

  /** A second `start-stream` changes nothing and spawns nothing, but is still answered. */
  lemma StartIsIdempotent(policy: ExitPolicy, sys: System, a: ClientId, b: ClientId)
    requires Consistent(sys)
    ensures var once := Step(policy, sys, Control(a, "start-stream")).next;
      var twice := Step(policy, once, Control(b, "start-stream"));
      && once.server.proc.Some? && once.server.streaming
      && twice.next == once
      && twice.effects == [Reply(b, StreamStarted)]
  {
  }

  /** `stop-stream` with no process held changes nothing and is still answered. */
  lemma StopWithoutProcessIsNoop(policy: ExitPolicy, sys: System, client: ClientId)
    requires sys.server.proc.None?
    ensures Step(policy, sys, Control(client, "stop-stream")) == Reaction(sys, [Reply(client, StreamStopped)])
  {
  }

  /**
    Closing any client's connection stops the shared process, whoever started
    it: the process is told to stop and handle and flag are cleared.
   */
  lemma CloseStopsSharedProcess(policy: ExitPolicy, sys: System, starter: ClientId, other: ClientId)
    requires Consistent(sys)
    ensures var started := Step(policy, sys, Control(starter, "start-stream")).next;
      var closed := Step(policy, started, Close(other));
      && closed.next.server == Server(None, false)
      && closed.effects == [Terminate(started.server.proc.value)]
  {
  }

  /**
    Start, stop, start again, and only then does the first process report its
    exit: as written, the callback clears the handle of the second, still
    running process, which nothing will ever stop.
   */
  lemma StaleExitOrphansNewProcess()
    ensures var sys := Run(AsWritten, Init(), [
        Control("admin", "start-stream"),
        Control("admin", "stop-stream"),
        Control("admin", "start-stream"),
        Exit(0)]);
      && sys.host.running == {1}
      && sys.server == Server(None, false)
      && 1 !in sys.host.signalled
      && !NoOrphans(sys)
  {
    var s1 := Step(AsWritten, Init(), Control("admin", "start-stream")).next;
    assert s1.server.proc == Some(0);
    var s2 := Step(AsWritten, s1, Control("admin", "stop-stream")).next;
    assert s2.host.signalled == {0};
    var s3 := Step(AsWritten, s2, Control("admin", "start-stream")).next;
    assert s3.server.proc == Some(1) && s3.host.running == {0, 1};
    var s4 := Step(AsWritten, s3, Exit(0)).next;
    assert s4.host.running == {1};
    assert Run(AsWritten, Init(), [
        Control("admin", "start-stream"),
        Control("admin", "stop-stream"),
        Control("admin", "start-stream"),
        Exit(0)]) == s4;
  }

  /** Process `pid` is running, but it is not held and was never told to stop. */
  predicate Orphaned(sys: System, pid: Pid) {
    && Consistent(sys)
    && pid in sys.host.running
    && pid !in sys.host.signalled
    && sys.server.proc != Some(pid)
  }

  /**
    No event other than the orphan's own exit reaches it: a later start
    spawns a fresh id, and a later stop or close signals only the process
    held, which the orphan is not.
   */
  lemma OrphanStepStaysOrphaned(policy: ExitPolicy, sys: System, pid: Pid, e: Event)
    requires Orphaned(sys, pid) && e != Exit(pid)
    ensures Orphaned(Step(policy, sys, e).next, pid)
    ensures Terminate(pid) !in Step(policy, sys, e).effects
  {
  }

  /** An orphan stays running and unsignalled, under either exit policy, until it exits by itself. */
  lemma {:induction false} OrphanStaysOrphaned(policy: ExitPolicy, sys: System, pid: Pid, es: seq<Event>)
    requires Orphaned(sys, pid)
    requires forall i | 0 <= i < |es| :: es[i] != Exit(pid)
    ensures Orphaned(Run(policy, sys, es), pid)
    decreases |es|
  {
    if es != [] {
      OrphanStepStaysOrphaned(policy, sys, pid, es[0]);
      OrphanStaysOrphaned(policy, Step(policy, sys, es[0]).next, pid, es[1..]);
    }
  }

  /**
    After the stale exit, whatever the clients send afterwards, including
    `stop-stream` and closing every connection, process 1 keeps running and is
    never signalled, until it exits on its own.
   */
  lemma {:induction false} StaleExitOrphanOutlivesStop(es: seq<Event>)
    requires forall i | 0 <= i < |es| :: es[i] != Exit(1)
    ensures var sys := Run(AsWritten, Init(), [
        Control("admin", "start-stream"),
        Control("admin", "stop-stream"),
        Control("admin", "start-stream"),
        Exit(0)]);
      var later := Run(AsWritten, sys, es);
      1 in later.host.running && 1 !in later.host.signalled
  {
    StaleExitOrphansNewProcess();
    var sys := Run(AsWritten, Init(), [
        Control("admin", "start-stream"),
        Control("admin", "stop-stream"),
        Control("admin", "start-stream"),
        Exit(0)]);
    RunKeepsConsistent(AsWritten, Init(), [
        Control("admin", "start-stream"),
        Control("admin", "stop-stream"),
        Control("admin", "start-stream"),
        Exit(0)]);
    OrphanStaysOrphaned(AsWritten, sys, 1, es);
  }

  /** With the pid check, one event keeps every running process either held or already told to stop. */
  lemma PidCheckedStepKeepsNoOrphans(sys: System, e: Event)
    requires Consistent(sys) && NoOrphans(sys)
    ensures NoOrphans(Step(PidChecked, sys, e).next)
  {
    var next := Step(PidChecked, sys, e).next;
    forall p | p in next.host.running
      ensures Some(p) == next.server.proc || p in next.host.signalled
    {
      assert p in sys.host.running || Some(p) == next.server.proc;
    }
  }

  /** With the pid check, no process is ever left running unheld and unsignalled. */
  lemma {:induction false} PidCheckedRunHasNoOrphans(sys: System, es: seq<Event>)
    requires Consistent(sys) && NoOrphans(sys)
    ensures NoOrphans(Run(PidChecked, sys, es))
    decreases |es|
  {
    if es != [] {
      PidCheckedStepKeepsNoOrphans(sys, es[0]);
      PidCheckedRunHasNoOrphans(Step(PidChecked, sys, es[0]).next, es[1..]);
    }
  }

  /** The pid check only changes the exit of a process that is not the one held. */
  lemma PoliciesDifferOnlyOnStaleExit(sys: System, e: Event)
    requires !(e.Exit? && e.pid in sys.host.running && sys.server.proc != Some(e.pid) && sys.server != Server(None, false))
    ensures Step(AsWritten, sys, e) == Step(PidChecked, sys, e)
  {
  }
}
